=== FILE: README.md ===
# Narrative chart helpers — a Dafny model

This project models the pure logic of a scroll-driven narrative
visualisation (a pie chart of retail investors' top stock picks and a line
chart). The page draws its charts with d3. Three pieces of `scripts/main.js`
hold logic of their own, and they are the subject of the model:

- **Geometry** (`geometry.dfy`, module `Geometry`): `chartAxisXCenter`,
  `chartAxisYCenter` and `chartTitleCenter` anchor the axis labels and the
  title. They work from the chart's width, height and four margins. JavaScript
  divides by 2 in floating point, so the coordinates are Dafny `real`s.
- **Palette** (`palette.dfy`, modules `Palette` and `Hsl`): `color(i)` fills
  pie slice `i` with `hsl(h, 100%, 75%)`, where `h = (i * 139 + 210) % 360`.
  `Palette` models the integer hue and `Hsl` models the colour string. The
  source comment promises that the colours are deterministic and that
  slices with consecutive indices differ. The model proves a stronger fact. Since
  139 · 259 = 100 · 360 + 1, the hue map is a bijection on indices modulo
  360, and `IndexOfHue` is its inverse.
- **Reveal** (`reveal.dfy`, module `Reveal`): the pie's entrance
  animation. At each frame the sweep angle decides how much of each slice is
  drawn. A slice the sweep has not reached is drawn as the empty path.
  Otherwise it is drawn from its start to `min(sweep, originalEnd)`. The frame
  function writes the new end back into the slice's datum (`d.endAngle`). For
  that reason the clamp reads the end angle captured before the first frame.
  `Frame` and `Animate` model that mutation. They show that each frame draws
  what `RevealAt` prescribes for its own sweep, whatever earlier frames wrote.

## Model

| member | source | states |
|---|---|---|
| Geometry.AxisXCenter | scripts/main.js:192-194 | the x-axis label anchor is the midpoint of the plot's horizontal extent `[marginLeft, width - marginRight]`: it is equally far from both ends and lies between them whenever the margins fit in the width |
| Geometry.AxisYCenter | scripts/main.js:197-199 | the y-axis label anchor is the midpoint of `[marginTop, height - marginBottom]`: it is equally far from both ends and lies between them whenever the margins fit in the height |
| Geometry.TitleCenter | scripts/main.js:202-204 | the title anchor is equally far from both chart edges and lies inside a chart of non-negative width |
| Geometry.AxisXCenterUnderTitle | scripts/main.js:192-204 | the x-axis label sits under the title if and only if the left and right margins are equal; otherwise it is offset by half their difference |
| Geometry.AnchorsFollowWidth | scripts/main.js:192-204 | widening the chart by `delta` moves both horizontal anchors by `delta / 2` |
| Geometry.Scene0Anchors | scripts/main.js:102-112 | with the 1000×800 canvas of the line chart built by `loadScene0` (which `init` does not call) and margins 50/20/50/80, the title is at 500, the x label at 530 and the y label at 400, and the margins fit |
| Palette.Hue | scripts/main.js:206-208 | every slice's hue lies in `[0, 360)` |
| Palette.FirstHue | scripts/main.js:208 | slice 0 gets hue 210 |
| Palette.HueStep | scripts/main.js:206-208 | each slice's hue is the previous slice's hue turned 139 degrees round the wheel |
| Palette.NeighbourDistinct | scripts/main.js:206-208 | slices with consecutive indices `i` and `i + 1` never share a hue |
| Palette.HuePeriodic | scripts/main.js:208 | the palette repeats with period 360 |
| Palette.IndexOfHueInverts | scripts/main.js:208 | the hue determines the slice index modulo 360 (left inverse) |
| Palette.HueOfIndexOfHue | scripts/main.js:208 | every hue in `[0, 360)` is used by some slice (right inverse) |
| Palette.SameHueIff | scripts/main.js:206-208 | two slices share a hue if and only if their indices agree modulo 360 |
| Palette.PieHuesDistinct | scripts/main.js:63-67 | in a pie of at most 360 slices, coloured by position, all slices have distinct hues |
| Hsl.Digits | scripts/main.js:208 | a non-negative hue renders as a non-empty string of decimal digits without a leading zero |
| Hsl.ValueOfDigits | scripts/main.js:208 | reading the rendered digits back yields the hue |
| Hsl.ColorOf | scripts/main.js:207-209 | the fill colour has the shape `hsl(` … `, 100%, 75%)` around the hue |
| Hsl.DigitsOfValue | scripts/main.js:208 | `Digits` is onto the canonical decimal numerals (no leading zero): rendering a numeral's value gives the numeral back. Below 10^21, and so for every hue, that rendering is what the template literal writes |
| Hsl.FormatOfParse | scripts/main.js:207-209 | converse round trip of the colour format (the source only formats): an accepted `hsl(<digits>, 100%, 75%)` string whose number is canonical is exactly the format applied to the hue it yields |
| Hsl.ParsedIsSliceColor | scripts/main.js:207-209 | every canonical `hsl(<h>, 100%, 75%)` with `h < 360` is the fill colour of slice `IndexOfHue(h)`, so the format is a bijection between slice indices modulo 360 and these strings |
| Hsl.ParseColorOf | scripts/main.js:207-209 | parsing a slice's fill colour recovers its hue (round trip) |
| Hsl.SameColorIff | scripts/main.js:206-209 | two slices get the same colour string if and only if their indices agree modulo 360, so slices with consecutive indices always get different colours |
| Reveal.RevealAt | scripts/main.js:74-83 | a frame draws nothing exactly when the sweep has not reached the slice's start; otherwise it draws from the slice's start to the smaller of the sweep and the captured end |
| Reveal.RevealWithinSlice | scripts/main.js:81 | the drawn end always lies within `[startAngle, originalEnd]` |
| Reveal.RevealSaturates | scripts/main.js:81 | any sweep at or past the slice's end draws the full slice |
| Reveal.RevealTracksSweep | scripts/main.js:81 | while the sweep is inside the slice, the drawn end is the sweep itself |
| Reveal.RevealMonotone | scripts/main.js:74-83 | a larger sweep never draws less of a slice |
| Reveal.Frame | scripts/main.js:74-83 | one frame keeps the datum's start angle and draws the clamp's arc. It leaves the datum unchanged when it draws nothing, and otherwise the drawn arc is the updated datum |
| Reveal.Animate | scripts/main.js:70-84 | running the frames draws one arc per sweep and never changes the datum's start angle |
| Reveal.AnimateHistoryFree | scripts/main.js:71-83 | the arc of every frame equals the clamp for that frame's sweep with the captured end, whatever earlier frames wrote into `d.endAngle` |
| Reveal.AnimateGrows | scripts/main.js:70-84 | with a non-decreasing sweep, each frame shows at least as much of the slice as every earlier frame |
| Reveal.AnimateRestoresDatum | scripts/main.js:71-81 | if the final sweep reaches the slice's end, the datum's end angle is restored to its original value and the last frame draws the full slice |

## Left out

- d3 is a foreign library (scripts/main.js:3). Its scales, axes, `d3.pie`, `d3.arc` path strings, centroids, `d3.interpolate`, easing and the transition scheduler are not modelled. The sweep angle of each frame is an input to `Reveal.RevealAt`, `Reveal.Frame` and `Reveal.Animate`. An arc is modelled by its two angles, not by the SVG path string `arc(d)` produces.
- DOM and SVG work is rendering, not logic. This covers selecting the canvas, setting attributes, appending groups and labels, opacity transitions, and `getTotalLength` with the dash-offset entrance (scripts/main.js:18-22, 58-61, 115-126, 173-188).
- Loading the CSV with `d3.csv(...).then(...)` is asynchronous I/O (scripts/main.js:33-34). The tickers and `RetailNetFlowMillions` values feed d3 only.
- The `console.log` in the label transform (scripts/main.js:92) is a debug side effect.
- `loadScene0` (scripts/main.js:96-189) is not called by `init`, which loads scene 1 (scripts/main.js:13-26). Its sample arrays (scripts/main.js:98-99) only feed d3 scales and a line path. Only its chart layout constants are modelled, in `Geometry.Scene0Chart`.
- `scripts/storyContent.js` is static narrative text with no behaviour.
- Hsl.Digits: JavaScript's number-to-string conversion is modelled only for integers below 2^53, written in plain decimal. Above 2^53 a Number is not exact, and from 10^21 a template literal writes exponent form (`1e+21`). Hues are always below 360.
- Palette.Hue: the index is a `nat`. The data join only passes non-negative positions, and for those JavaScript's truncating `%` agrees with Dafny's. A negative index, for which JavaScript's truncating `%` can give a negative hue (i = -2 gives -68), is not modelled.
- Geometry.AxisXCenter: chart dimensions are exact reals. IEEE-754 rounding of the JavaScript numbers is not modelled. It is exact for the integer layouts used here.
- Geometry.AxisYCenter: the same reals-for-doubles abstraction as `Geometry.AxisXCenter`.
- Geometry.TitleCenter: the same reals-for-doubles abstraction as `Geometry.AxisXCenter`.
- `Reveal` needs no such caveat: it only compares angles and takes a minimum, which is exact on doubles.
- The d3 pie datum's other fields (`data`, `value`, `index`, `padAngle`) are omitted from `Reveal.Datum`. The closure itself does not read them. `padAngle` is read only by the `d3.arc` path generator, which is left out.

=== FILE: geometry.dfy ===
/** Anchor points for a chart's axis labels and title.

    A chart is a rectangle of `width` by `height` pixels with a margin on each
    side; the plot area is what the margins leave. Coordinates are JavaScript
    numbers divided by 2, so they are modelled as `real`.
 */
module Geometry {

  /** The layout attributes of a chart object that the anchor helpers read. */
  datatype Chart = Chart(
    width: real,
    height: real,
    marginTop: real,
    marginRight: real,
    marginBottom: real,
    marginLeft: real
  )

  /** The plot area fits horizontally: the left and right margins do not overlap. */
  predicate FitsHorizontally(c: Chart) {
    c.marginLeft + c.marginRight <= c.width
  }

  /** The plot area fits vertically: the top and bottom margins do not overlap. */
  predicate FitsVertically(c: Chart) {
    c.marginTop + c.marginBottom <= c.height
  }

  /** Horizontal anchor of the x-axis label: the centre of the plot area's
      horizontal extent, that is, half the plot width past the left margin. */
  function AxisXCenter(c: Chart): (x: real)
    ensures x == (c.marginLeft + (c.width - c.marginRight)) / 2.0
    ensures x - c.marginLeft == (c.width - c.marginRight) - x
    ensures FitsHorizontally(c) ==> c.marginLeft <= x <= c.width - c.marginRight
  {
    ((c.width - c.marginLeft - c.marginRight) / 2.0) + c.marginLeft
  }

  /** Vertical anchor of the y-axis label: the centre of the plot area's
      vertical extent, that is, half the plot height below the top margin. */
  function AxisYCenter(c: Chart): (y: real)
    ensures y == (c.marginTop + (c.height - c.marginBottom)) / 2.0
    ensures y - c.marginTop == (c.height - c.marginBottom) - y
    ensures FitsVertically(c) ==> c.marginTop <= y <= c.height - c.marginBottom
  {
    ((c.height - c.marginTop - c.marginBottom) / 2.0) + c.marginTop
  }

  /** Horizontal anchor of the title: the centre of the whole chart, margins
      ignored. */
  function TitleCenter(c: Chart): (x: real)
    ensures x == c.width - x
    ensures 0.0 <= c.width ==> 0.0 <= x <= c.width
  {
    c.width / 2.0
  }

  /** The x-axis label sits under the title exactly when the left and right
      margins are equal; otherwise it is shifted by half their difference
      towards the narrower margin. */
  lemma AxisXCenterUnderTitle(c: Chart)
    ensures AxisXCenter(c) == TitleCenter(c) <==> c.marginLeft == c.marginRight
    ensures AxisXCenter(c) - TitleCenter(c) == (c.marginLeft - c.marginRight) / 2.0
  {
  }

  /** Widening the chart by `delta` moves both horizontal anchors right by
      half of `delta`, so they keep their distance. */
  lemma AnchorsFollowWidth(c: Chart, delta: real)
    ensures AxisXCenter(c.(width := c.width + delta)) == AxisXCenter(c) + delta / 2.0
    ensures TitleCenter(c.(width := c.width + delta)) == TitleCenter(c) + delta / 2.0
  {
  }

  /** The layout of the line chart built by `loadScene0` (a scene routine that
      `init` does not call): a 1000 by 800 canvas with margins 50 (top),
      20 (right), 50 (bottom) and 80 (left). */
  const Scene0Chart := Chart(1000.0, 800.0, 50.0, 20.0, 50.0, 80.0)

  /** Where that line chart's labels land: the title at 500, the x-axis
      label at 530 (80 + 900 / 2) and the y-axis label at 400. */
  lemma Scene0Anchors()
    ensures TitleCenter(Scene0Chart) == 500.0
    ensures AxisXCenter(Scene0Chart) == 530.0
    ensures AxisYCenter(Scene0Chart) == 400.0
    ensures FitsHorizontally(Scene0Chart) && FitsVertically(Scene0Chart)
  {
  }
}

=== FILE: palette.dfy ===
/** Slice colours of the proportion chart.

    Slice `i` is filled with the HSL colour whose hue is `(i * 139 + 210) % 360`
    and whose saturation and lightness are fixed at 100% and 75%. The index is
    the position in the data join, never negative, so JavaScript's truncating
    `%` and Dafny's Euclidean `%` agree on it.

    Because 139 and 360 are coprime (139 * 259 = 100 * 360 + 1), the hue map is
    a bijection on the indices modulo 360; its inverse is `IndexOfHue`.
 */
module Palette {

  /** Number of distinct hues, the modulus of the colour wheel. */
  const Wheel: int := 360
  /** Hue step between consecutive slices. */
  const Step: int := 139
  /** Hue of slice 0. */
  const Offset: int := 210
  /** The multiplicative inverse of `Step` modulo `Wheel`. */
  const InverseStep: int := 259

  /** Hue of slice `i`, in degrees. */
  function Hue(i: nat): (h: int)
    ensures 0 <= h < Wheel
  {
    (i * Step + Offset) % Wheel
  }

  /** The slice index modulo 360 that a hue in [0, 360) belongs to. */
  function IndexOfHue(h: int): (i: nat)
    ensures i < Wheel
  {
    ((h - Offset) * InverseStep) % Wheel
  }

  /** Adding a multiple of the modulus does not change a remainder. */
  lemma {:induction false} ModShift(x: int, k: int)
    ensures (x + Wheel * k) % Wheel == x % Wheel
  {
    var q := x / Wheel;
    var r := x % Wheel;
    assert x == Wheel * q + r;
    assert x + Wheel * k == Wheel * (q + k) + r;
  }

  /** Slice 0 takes hue 210. */
  lemma FirstHue()
    ensures Hue(0) == 210
  {
  }

  /** The hue of slice `i + 1` is the hue of slice `i` turned by 139 degrees
      round the colour wheel. */
  lemma {:induction false} HueStep(i: nat)
    ensures Hue(i + 1) == (Hue(i) + Step) % Wheel
  {
    var x := i * Step + Offset;
    assert (i + 1) * Step + Offset == x + Step;
    var q := x / Wheel;
    assert x == Hue(i) + Wheel * q;
    ModShift(Hue(i) + Step, q);
  }

  /** Slices with consecutive indices never share a colour. */
  lemma {:induction false} NeighbourDistinct(i: nat)
    ensures Hue(i) != Hue(i + 1)
  {
    HueStep(i);
  }

  /** The palette repeats after 360 slices. */
  lemma {:induction false} HuePeriodic(i: nat)
    ensures Hue(i + Wheel) == Hue(i)
  {
    assert (i + Wheel) * Step + Offset == (i * Step + Offset) + Wheel * Step;
    ModShift(i * Step + Offset, Step);
  }

  /** `IndexOfHue` recovers the slice index modulo 360 from its hue. */
  lemma {:induction false} IndexOfHueInverts(i: nat)
    ensures IndexOfHue(Hue(i)) == i % Wheel
  {
    var x := i * Step + Offset;
    var q := x / Wheel;
    assert x == Hue(i) + Wheel * q;
    assert (Hue(i) - Offset) * InverseStep == (x - Wheel * q - Offset) * InverseStep;
    assert (x - Wheel * q - Offset) * InverseStep == i * (Step * InverseStep) - Wheel * q * InverseStep;
    assert Step * InverseStep == 1 + Wheel * 100;
    assert i * (1 + Wheel * 100) - Wheel * q * InverseStep == i + Wheel * (100 * i - q * InverseStep);
    ModShift(i, 100 * i - q * InverseStep);
  }

  /** Every hue in [0, 360) is the hue of slice `IndexOfHue(h)`: the palette
      uses the whole wheel. (That no other index modulo 360 has it is
      `SameHueIff`.) */
  lemma {:induction false} HueOfIndexOfHue(h: int)
    requires 0 <= h < Wheel
    ensures Hue(IndexOfHue(h)) == h
  {
    var y := (h - Offset) * InverseStep;
    var j := IndexOfHue(h);
    var p := y / Wheel;
    assert y == j + Wheel * p;
    assert j * Step + Offset == (y - Wheel * p) * Step + Offset;
    assert (y - Wheel * p) * Step + Offset == (h - Offset) * (Step * InverseStep) - Wheel * p * Step + Offset;
    assert Step * InverseStep == 1 + Wheel * 100;
    assert (h - Offset) * (1 + Wheel * 100) - Wheel * p * Step + Offset
        == h + Wheel * (100 * (h - Offset) - p * Step);
    ModShift(h, 100 * (h - Offset) - p * Step);
  }

  /** Two slices share a hue exactly when their indices agree modulo 360. */
  lemma {:induction false} SameHueIff(i: nat, j: nat)
    ensures Hue(i) == Hue(j) <==> i % Wheel == j % Wheel
  {
    IndexOfHueInverts(i);
    IndexOfHueInverts(j);
    if i % Wheel == j % Wheel {
      var d := i / Wheel - j / Wheel;
      assert i == j + Wheel * d;
      assert i * Step + Offset == (j * Step + Offset) + Wheel * (d * Step);
      ModShift(j * Step + Offset, d * Step);
    }
  }

  /** A pie of at most 360 slices gets a different colour on every slice:
      every pair differs, whatever order the layout places them in. */
  lemma {:induction false} PieHuesDistinct(n: nat, i: nat, j: nat)
    requires n <= Wheel
    requires i < n && j < n && i != j
    ensures Hue(i) != Hue(j)
  {
    SameHueIff(i, j);
  }
}

/** The CSS colour string a slice is filled with, `hsl(<hue>, 100%, 75%)`,
    where the hue is written the way a JavaScript template literal writes a
    non-negative integer: plain decimal digits, no leading zeros. */
module Hsl {
  import Palette

  datatype Option<T> = None | Some(value: T)

  const Prefix: string := "hsl("
  const Suffix: string := ", 100%, 75%)"

  predicate IsDigit(c: char) {
    '0' <= c <= '9'
  }

  /** Decimal rendering of a natural number. */
  function Digits(n: nat): (s: string)
    ensures |s| >= 1
    ensures forall k :: 0 <= k < |s| ==> IsDigit(s[k])
    ensures |s| > 1 ==> s[0] != '0'
    decreases n
  {
    var d := [(('0' as int) + n % 10) as char];
    if n < 10 then d else Digits(n / 10) + d
  }

  /** The value of one decimal digit. */
  function DigitValue(c: char): (d: nat)
    requires IsDigit(c)
    ensures d < 10
  {
    (c as int) - ('0' as int)
  }

  /** The number a string of decimal digits denotes. */
  function Value(s: string): (n: nat)
    requires forall k :: 0 <= k < |s| ==> IsDigit(s[k])
    decreases |s|
  {
    if |s| == 0 then 0
    else 10 * Value(s[..|s| - 1]) + DigitValue(s[|s| - 1])
  }

  /** Reading back a rendered number gives the number. */
  lemma {:induction false} ValueOfDigits(n: nat)
    ensures Value(Digits(n)) == n
    decreases n
  {
    var s := Digits(n);
    if n >= 10 {
      ValueOfDigits(n / 10);
      assert s[..|s| - 1] == Digits(n / 10);
    }
  }

  /** Fill colour of slice `i`. */
  function ColorOf(i: nat): (s: string)
    ensures |s| > |Prefix| + |Suffix|
    ensures s[..|Prefix|] == Prefix && s[|s| - |Suffix|..] == Suffix
  {
    Prefix + Digits(Palette.Hue(i)) + Suffix
  }

  /** A decimal numeral as a template literal writes it: non-empty, digits
      only, and no leading zero unless it is the single digit 0. */
  predicate Canonical(t: string) {
    && |t| >= 1
    && (forall k :: 0 <= k < |t| ==> IsDigit(t[k]))
    && (|t| > 1 ==> t[0] != '0')
  }

  /** A numeral of two or more digits without a leading zero is at least 10. */
  lemma {:induction false} ValueAtLeastTen(t: string)
    requires Canonical(t) && |t| > 1
    ensures Value(t) >= 10
    decreases |t|
  {
    var u := t[..|t| - 1];
    assert u[0] == t[0];
    if |u| > 1 {
      ValueAtLeastTen(u);
    } else {
      assert Value(u) == DigitValue(u[0]);
    }
  }

  /** Rendering the value of a canonical numeral gives back the numeral:
      `Digits` is onto the canonical numerals. */
  lemma {:induction false} DigitsOfValue(t: string)
    requires Canonical(t)
    ensures Digits(Value(t)) == t
    decreases |t|
  {
    var c := t[|t| - 1];
    assert (('0' as int) + DigitValue(c)) as char == c;
    if |t| > 1 {
      var u := t[..|t| - 1];
      assert u[0] == t[0];
      ValueAtLeastTen(t);
      assert Value(t) / 10 == Value(u);
      assert Value(t) % 10 == DigitValue(c);
      DigitsOfValue(u);
      assert t == u + [c];
    }
  }

  /** Reads the hue back from a colour string. It accepts exactly the strings
      of the shape `hsl(<digits>, 100%, 75%)`. */
  function ParseHue(s: string): (r: Option<nat>)
    ensures r.Some? <==> |s| > |Prefix| + |Suffix| && s[..|Prefix|] == Prefix && s[|s| - |Suffix|..] == Suffix
                         && forall k :: |Prefix| <= k < |s| - |Suffix| ==> IsDigit(s[k])
  {
    if |s| <= |Prefix| + |Suffix| || s[..|Prefix|] != Prefix || s[|s| - |Suffix|..] != Suffix then None
    else
      var body := s[|Prefix|..|s| - |Suffix|];
      if forall k :: 0 <= k < |body| ==> IsDigit(body[k]) then Some(Value(body)) else None
  }

  /** An accepted colour string whose number has no leading zero is exactly
      the colour formatted from the hue it yields. */
  lemma {:induction false} FormatOfParse(s: string)
    requires ParseHue(s).Some?
    requires Canonical(s[|Prefix|..|s| - |Suffix|])
    ensures s == Prefix + Digits(ParseHue(s).value) + Suffix
  {
    var body := s[|Prefix|..|s| - |Suffix|];
    DigitsOfValue(body);
    assert s == s[..|Prefix|] + body + s[|s| - |Suffix|..];
  }

  /** Every well-formed colour string with a hue below 360 is the fill of a
      slice, namely of slice `IndexOfHue(h)`: the format loses nothing. */
  lemma {:induction false} ParsedIsSliceColor(s: string, h: nat)
    requires ParseHue(s) == Some(h) && h < Palette.Wheel
    requires Canonical(s[|Prefix|..|s| - |Suffix|])
    ensures s == ColorOf(Palette.IndexOfHue(h))
  {
    FormatOfParse(s);
    Palette.HueOfIndexOfHue(h);
  }

  /** Parsing a slice's colour gives back its hue. */
  lemma {:induction false} ParseColorOf(i: nat)
    ensures ParseHue(ColorOf(i)) == Some(Palette.Hue(i))
  {
    var d := Digits(Palette.Hue(i));
    var s := ColorOf(i);
    assert s[|Prefix|..|s| - |Suffix|] == d;
    ValueOfDigits(Palette.Hue(i));
  }

  /** Two slices get the same colour string exactly when their indices agree
      modulo 360; in particular slices with consecutive indices always differ. */
  lemma {:induction false} SameColorIff(i: nat, j: nat)
    ensures ColorOf(i) == ColorOf(j) <==> i % Palette.Wheel == j % Palette.Wheel
    ensures ColorOf(i) != ColorOf(i + 1)
  {
    ParseColorOf(i);
    ParseColorOf(j);
    ParseColorOf(i + 1);
    Palette.SameHueIff(i, j);
    Palette.NeighbourDistinct(i);
  }
}

=== FILE: reveal.dfy ===
/** The sweeping entrance of the proportion chart's slices.

    Every slice of the pie is animated by the same sweep: at each frame an
    angle `currentAngle` (produced by an interpolator from the pie's start to
    its end angle) says how far round the pie has been revealed. A slice the
    sweep has not reached yet is drawn as the empty path; otherwise it is drawn
    from its own start angle up to the sweep, but never past its own end.

    The frame function mutates the slice's datum (`d.endAngle`), so the clamp
    reads the slice's end from a copy taken before the first frame; `Frame`
    and `Animate` model that mutation and show that the drawn shape depends
    only on the current sweep, not on the frames before it.
 */
module Reveal {

  /** What one frame draws for a slice: nothing, or the arc between two angles. */
  datatype Arc = Empty | Slice(startAngle: real, endAngle: real)

  /** The angles of a pie-layout datum that the animation reads and writes. */
  datatype Datum = Datum(startAngle: real, endAngle: real)

  function Min(a: real, b: real): (m: real) {
    if a <= b then a else b
  }

  /** The arc drawn for a slice spanning [startAngle, originalEnd] when the
      sweep has reached `currentAngle`. */
  function RevealAt(startAngle: real, originalEnd: real, currentAngle: real): (r: Arc)
    ensures r.Empty? <==> currentAngle < startAngle
    ensures r.Slice? ==> r.startAngle == startAngle
    ensures r.Slice? ==> r.endAngle <= currentAngle && r.endAngle <= originalEnd
    ensures r.Slice? ==> r.endAngle == currentAngle || r.endAngle == originalEnd
  {
    if currentAngle < startAngle then Empty
    else Slice(startAngle, Min(currentAngle, originalEnd))
  }

  /** A drawn arc never extends outside the slice it reveals. */
  lemma RevealWithinSlice(startAngle: real, originalEnd: real, currentAngle: real)
    requires startAngle <= originalEnd
    ensures var r := RevealAt(startAngle, originalEnd, currentAngle);
            r.Slice? ==> startAngle <= r.endAngle <= originalEnd
  {
  }

  /** Once the sweep has passed the slice's end, the whole slice is drawn. */
  lemma RevealSaturates(startAngle: real, originalEnd: real, currentAngle: real)
    requires startAngle <= originalEnd <= currentAngle
    ensures RevealAt(startAngle, originalEnd, currentAngle) == Slice(startAngle, originalEnd)
  {
  }

  /** While the sweep is inside the slice, the drawn arc ends exactly at the sweep. */
  lemma RevealTracksSweep(startAngle: real, originalEnd: real, currentAngle: real)
    requires startAngle <= currentAngle <= originalEnd
    ensures RevealAt(startAngle, originalEnd, currentAngle) == Slice(startAngle, currentAngle)
  {
  }

  /** `a` shows no more of a slice than `b` does. */
  predicate Covered(a: Arc, b: Arc) {
    a.Empty? || (b.Slice? && a.startAngle == b.startAngle && a.endAngle <= b.endAngle)
  }

  /** A further sweep never shows less of a slice. */
  lemma RevealMonotone(startAngle: real, originalEnd: real, c1: real, c2: real)
    requires c1 <= c2
    ensures Covered(RevealAt(startAngle, originalEnd, c1), RevealAt(startAngle, originalEnd, c2))
  {
  }

  /** One frame of the slice animation: it reads and rewrites the datum's end
      angle and returns the drawn arc together with the updated datum. The
      datum is left untouched when the sweep has not reached the slice. */
  function Frame(originalEnd: real, d: Datum, currentAngle: real): (res: (Datum, Arc))
    ensures res.0.startAngle == d.startAngle
    ensures res.1.Empty? ==> res.0 == d
    ensures res.1.Slice? ==> res.1 == Slice(res.0.startAngle, res.0.endAngle)
    ensures res.1 == RevealAt(d.startAngle, originalEnd, currentAngle)
  {
    if currentAngle < d.startAngle then (d, Empty)
    else
      var d' := d.(endAngle := Min(currentAngle, originalEnd));
      (d', Slice(d'.startAngle, d'.endAngle))
  }

  /** Runs the frames for the successive sweep angles `sweeps` from datum `d`,
      returning the final datum and the arc drawn at each frame. */
  function Animate(originalEnd: real, d: Datum, sweeps: seq<real>): (res: (Datum, seq<Arc>))
    ensures |res.1| == |sweeps|
    ensures res.0.startAngle == d.startAngle
    decreases |sweeps|
  {
    if |sweeps| == 0 then (d, [])
    else
      var (d1, a) := Frame(originalEnd, d, sweeps[0]);
      var (dn, rest) := Animate(originalEnd, d1, sweeps[1..]);
      (dn, [a] + rest)
  }

  /** Each frame draws what the clamp prescribes for its own sweep, whatever
      earlier frames wrote into the datum: the captured `originalEnd` makes
      the animation history-free. */
  lemma {:induction false} AnimateHistoryFree(originalEnd: real, d: Datum, sweeps: seq<real>, k: nat)
    requires k < |sweeps|
    ensures Animate(originalEnd, d, sweeps).1[k] == RevealAt(d.startAngle, originalEnd, sweeps[k])
    decreases |sweeps|
  {
    var (d1, a) := Frame(originalEnd, d, sweeps[0]);
    if k > 0 {
      AnimateHistoryFree(originalEnd, d1, sweeps[1..], k - 1);
    }
  }

  /** The sweep only moves forward. */
  predicate Nondecreasing(sweeps: seq<real>) {
    forall i, j :: 0 <= i <= j < |sweeps| ==> sweeps[i] <= sweeps[j]
  }

  /** With a forward-moving sweep, every frame shows at least as much of the
      slice as every earlier frame. */
  lemma AnimateGrows(originalEnd: real, d: Datum, sweeps: seq<real>, i: nat, j: nat)
    requires Nondecreasing(sweeps)
    requires i <= j < |sweeps|
    ensures Covered(Animate(originalEnd, d, sweeps).1[i], Animate(originalEnd, d, sweeps).1[j])
  {
    AnimateHistoryFree(originalEnd, d, sweeps, i);
    AnimateHistoryFree(originalEnd, d, sweeps, j);
    RevealMonotone(d.startAngle, originalEnd, sweeps[i], sweeps[j]);
  }

  /** If the last sweep reaches the slice's end, the animation leaves the
      datum with its original end angle again: the per-frame mutation is
      undone by the final frame. */
  lemma {:induction false} AnimateRestoresDatum(originalEnd: real, d: Datum, sweeps: seq<real>)
    requires d.startAngle <= originalEnd
    requires |sweeps| > 0 && sweeps[|sweeps| - 1] >= originalEnd
    ensures Animate(originalEnd, d, sweeps).0 == Datum(d.startAngle, originalEnd)
    ensures Animate(originalEnd, d, sweeps).1[|sweeps| - 1] == Slice(d.startAngle, originalEnd)
    decreases |sweeps|
  {
    var (d1, a) := Frame(originalEnd, d, sweeps[0]);
    AnimateHistoryFree(originalEnd, d, sweeps, |sweeps| - 1);
    if |sweeps| > 1 {
      assert sweeps[1..][|sweeps[1..]| - 1] == sweeps[|sweeps| - 1];
      AnimateRestoresDatum(originalEnd, d1, sweeps[1..]);
    }
  }
}
